=== FILE: README.md ===
# ChessAnalyzer analysis board, modelled in Dafny

ChessAnalyzer is a single-page chess analysis board. The user pastes a game
in PGN, steps through its moves, and may drag pieces to play a side line.
After every change of position the page tells a UCI chess engine (Stockfish,
running in a web worker) which position to analyse. The engine streams back
`info depth …` progress lines, and the page turns them into up to five ranked
candidate lines and one arrow per distinct recommended first move.

This project models the logic of `src/app/page.tsx` as pure functions over
immutable states. It has three parts.

- **The move timeline** (`timeline.dfy`). This is the loaded mainline with its
  cursor, the user's branch with its own cursor, and the rules engine's move
  stack. It also records every command posted to the engine.
  - `analyze`, `resetBoard`, `goBackward`, `goForward`, `goToBeginning`,
    `goToEnd` and `onPieceDrop` are modelled.
  - The central invariant, `Timeline.Valid`, says that the live game is
    always the applied mainline prefix followed by the applied branch prefix.
  - Every operation preserves it, except an `analyze` whose load throws after
    replaying part of the PGN (see below).
- **The position synchronizer** (`sync.dfy`, `Timeline.UpdateBoard`). These
  are the three commands sent on each change.
  - When every move code is non-empty and free of spaces, the `position`
    command splits back into exactly the moves it was built from.
- **The engine output parser** (`parser.dfy`, `linestore.dfy`, `arrows.dfy`).
  This covers the `onmessage` handler, `getMoveObjects`, the rank-keyed line
  store (a JavaScript `Map`, which keeps insertion order) and the arrow
  projection.

Supporting modules:

- `js.dfy` models the JavaScript built-ins the code relies on, with their
  edge cases: `indexOf` answering -1, `slice` clamping its bounds,
  `split`/`join` on one character, `parseInt`, `Number` coercion, and `NaN`.
- `chess.dfy` stands for the chess.js rules engine, which is not part of this
  model.
  - A game is its stack of moves.
  - Each rules question (play a move code, play a dragged move, side to move,
    load PGN) is a function value the caller supplies in a `Rules` record.
  - A move the engine refuses (it throws) is `None`.
  - Loading a PGN either succeeds with its moves or fails, leaving behind the
    game the engine had reached when it threw.

Three behaviours of the code worth knowing:

- A mate score is divided by 100 like a centipawn score
  (`src/app/page.tsx:106-112`). It is not kept as a move count.
- When `loadPgn` throws, the exception leaves `analyze` before
  `history.current` is assigned (`src/app/page.tsx:192-193`). The mainline,
  the branch, the board and the engine are left alone, but the live game is
  whatever the failed load left behind. When that differs from the game
  before, the live game no longer matches the timeline.
- Without a `pv` token, `indexOf` answers -1 and the continuation is read from
  the message's first token on (`src/app/page.tsx:96-102`). The model keeps
  this.

## Model

| member | source | states |
|---|---|---|
| Timeline.Initial | src/app/page.tsx:16-33 | The page starts with no mainline, no branch and an empty move stack, which satisfies the timeline invariant. |
| Timeline.UpdateBoard | src/app/page.tsx:175-189 | For a valid timeline the engine is told exactly the live game, a list of moves from the start position (stop, position, go depth 20), and the board shows it. Nothing else changes, and validity is kept in both directions. |
| Sync.Commands | src/app/page.tsx:176-186 | One synchronisation sends three commands in order: `stop`, the `position` command, `go depth 20`. When every move code is non-empty and space-free, the engine reads back from the `position` command its keywords followed by exactly those codes. |
| Sync.PositionCommandTokens | src/app/page.tsx:176-184 | Splitting the `position` command at spaces gives `position startpos moves` followed by the move codes in order. With no moves it is the bare `position startpos`. The codes must be non-empty and hold no space. |
| Timeline.Analyze | src/app/page.tsx:191-203 | A PGN the rules engine loads becomes the mainline with the cursor at its end, and the branch is dropped. The engine receives `ucinewgame`, `isready`, then the position of the whole game. When the load throws, nothing is sent, the board and the timeline stay, and the live game is what the failed load left behind. The timeline invariant then holds exactly when that is the game from before. |
| Timeline.ResetBoard | src/app/page.tsx:205-215 | Back to the empty start position with no mainline or branch; the empty position is sent to the engine. |
| Timeline.GoBackward | src/app/page.tsx:231-255 | A branch move is taken back before any mainline move, always with a synchronisation, even when redrawing is off. Taking back the last applied branch move discards the branch when a mainline exists. A mainline move is taken back only when no branch move is applied; it synchronises only when redrawing is on, and otherwise sends nothing and leaves the board. At the start nothing happens. The combined cursor drops by one, the live game loses its last move, and validity is kept. |
| Timeline.GoForward | src/app/page.tsx:257-277 | While a branch exists, only the branch cursor advances, playing the next branch move and always synchronising, even when redrawing is off. Otherwise the mainline cursor advances, playing the next mainline move; it synchronises only when redrawing is on, and otherwise sends nothing and leaves the board. With nothing to play, nothing changes. Validity is kept. |
| Timeline.BackToStart | src/app/page.tsx:220-224 | The `goToBeginning` loop ends with both cursors at 0 and an empty live game. |
| Timeline.GoToBeginning | src/app/page.tsx:217-229 | Ends at the start position with the mainline kept. When anything moved, the earlier outbox is kept and grows by three commands per applied branch move (each branch step synchronises although the loop passes `updateBoard: false`) plus the final stop/position/go, which is the start position's. Otherwise nothing changes. |
| Timeline.BackToStartTrail | src/app/page.tsx:220-241 | What the loop sends is exactly `Trail`: a synchronisation for each branch move taken back, none for mainline moves. |
| Timeline.GoToBeginningSends | src/app/page.tsx:217-241 | All that `goToBeginning` sends: the old outbox, then the `Trail` of the branch moves taken back, then the start position. |
| Timeline.TrailTriples | src/app/page.tsx:231-241 | The trail has three commands per move taken back, and its k-th triple is stop/position/go for the live game with k + 1 moves removed. |
| Timeline.ForwardToEndHangs | src/app/page.tsx:282-289 | With a branch present and the mainline cursor short of its end, the `goToEnd` loop never finishes, whatever the iteration bound. |
| Timeline.ForwardToEndFinishes | src/app/page.tsx:282-289 | In every other valid state the loop finishes within the remaining number of moves, with both cursors at their ends. |
| Timeline.GoToEndReturnsIff | src/app/page.tsx:279-294 | `goToEnd` returns if and only if the state does not hang. |
| Timeline.DropBehindEndHangs | src/app/page.tsx:282-314 | A successful piece drop while the mainline cursor is behind the end leaves a state from which `goToEnd` never returns. |
| Timeline.HangScenario | src/app/page.tsx:191-322 | Concrete case: load two moves, step back once, drag a piece; `goToEnd` then never returns. |
| Timeline.GoToEndFixed | src/app/page.tsx:279-294 | The corrected `goToEnd`, which steps while `goForward` can advance. It always returns and leaves nothing further to step to. It keeps validity and shows the final position. |
| Timeline.GoToEndFixedAgrees | src/app/page.tsx:279-294 | Wherever the code as written returns, the corrected version ends in the same state. |
| Timeline.StartThenEnd | src/app/page.tsx:217-294 | On a branch-free timeline, jumping to the start and then to the end replays the whole mainline. |
| Timeline.OnPieceDrop | src/app/page.tsx:296-322 | A refused drag answers false and changes nothing. An accepted one cuts the branch at its cursor and appends the move. It advances the branch cursor past it, extends the live game by it, leaves the mainline alone, tells the engine the new live game, shows it and keeps validity. |
| Timeline.DropDiscardsContinuation | src/app/page.tsx:311-314 | After a drop, the move is the tip of the branch and stepping forward does nothing. |
| Timeline.ForwardThenBack | src/app/page.tsx:231-277 | A forward step that plays a move is undone exactly by a backward step. |
| Timeline.BackThenForward | src/app/page.tsx:231-277 | A backward step is undone exactly by a forward step. The exception is taking back the only applied branch move while a mainline exists. |
| Timeline.BranchAbandoned | src/app/page.tsx:232-237 | In that exception the branch is discarded, and the next forward step follows the mainline. |
| Timeline.ForwardStuckOnBranch | src/app/page.tsx:258-266 | Once the branch is fully applied, a forward step does nothing, even with mainline moves left. |
| Chess.UndoTimesPlayed | src/app/page.tsx:47-49 | Undoing as many moves as were just played restores the game. |
| Parser.PlayUntilRefusedSpec | src/app/page.tsx:41-45 | Each collected move is what the rules engine plays for its code on the game so far, and the first uncollected code is one it refuses. |
| Parser.GetMoveObjects | src/app/page.tsx:38-64 | The live game is left as it was, and there is one move per code. The result is the engine's moves when every code played, otherwise a degraded move per code. |
| Parser.Degraded | src/app/page.tsx:54-62 | A degraded move keeps the code and has no display notation. Its origin is the code's first two characters and its destination the next two, each cut short by a shorter code. |
| Parser.PvTokensSpec | src/app/page.tsx:94-102 | At most 15 continuation tokens: those right after the first `pv`, or from the start when there is none. |
| Parser.PvLength | src/app/page.tsx:96-102 | The continuation holds the tokens after `pv`, capped at 15. |
| Parser.OnInfo | src/app/page.tsx:77-121 | A message whose fourth token is not `seldepth` changes nothing. Otherwise the timeline is untouched, and a new pass captures the side to move. |
| Parser.OnInfoStores | src/app/page.tsx:84-121 | The line is stored under its rank key; on a new pass it is the only line. Otherwise other ranks keep their lines, key order is kept, a rank new to the pass is appended after the others, and keys stay distinct. |
| Parser.OnInfoArrows | src/app/page.tsx:87-149 | When every stored line has a move, the arrows are one per first occurrence of each first move, in store order. Otherwise the projection throws and the arrows stay as they were (empty after a new-pass clear). |
| Parser.LineMoves | src/app/page.tsx:94-119 | The stored line has one move per continuation token, at most 15. When every token is played, the moves are the rules engine's moves. When one is refused, every move is the degraded reading of its token. |
| Parser.ScoreFromText | src/app/page.tsx:104-110 | A score token `n` is stored as `n / 100` from White's side, negated when Black is to move. |
| Parser.RankKeyFromText | src/app/page.tsx:85-114 | A rank token `n` is stored under key `n - 1`. |
| Parser.FirstLineOf | src/app/page.tsx:77-121 | A new-pass message leaves exactly one stored line. Its key is one below the rank, its mate flag follows the score type (`cp` or `mate`), it has one move per continuation token, and its score value is divided by 100 and White-relative — a mate count too. |
| Parser.FirstLineOfPass | src/app/page.tsx:77-121 | For the engine line `info depth 1 seldepth 1 multipv 1 score cp 25 nodes 20 pv e2e4 e7e5`: one line, key 0, two moves, score 0.25 (or -0.25 with Black to move). |
| Parser.OnMessage | src/app/page.tsx:69-150 | `uciok` synchronises the position. A line starting `info depth` goes to the parser without touching the timeline. Any other message is ignored. |
| Parser.RunPreserves | src/app/page.tsx:69-150 | No sequence of engine messages breaks the timeline invariant or duplicates a rank key, and none changes the mainline, the branch, their cursors or the live game. |
| LineStore.Get | src/app/page.tsx:330-331 | `Map.get` as the page's rendering reads the best line; it is also the lookup that states the laws of `set`. A key is found exactly when it is among the store's keys. |
| LineStore.SetGet | src/app/page.tsx:114-119 | After `set`, the key maps to the new line and every other key keeps its line. |
| LineStore.SetKeys | src/app/page.tsx:114-119 | `set` keeps the order of existing keys and appends a new key last. |
| LineStore.SetDistinct | src/app/page.tsx:114-119 | `set` never duplicates a key. |
| Arrows.WidthByRank | src/app/page.tsx:138 | Better-ranked lines get strictly thicker arrows: rank key 0 is 16 wide and each rank below is 2 thinner. |
| Arrows.ProjectFails | src/app/page.tsx:126-133 | The projection succeeds if and only if every stored line has a first move. |
| Arrows.ProjectKeepsFirsts | src/app/page.tsx:123-149 | The projection draws, in store order, the arrow of exactly those lines whose first move no earlier line shares. |
| Arrows.ArrowsDeduplicated | src/app/page.tsx:123-147 | Drawn arrows come from lines with pairwise different first moves, and there are no more of them than stored lines. Every stored first move is drawn, from its earliest line. |
| Arrows.SameFirstMoveOneArrow | src/app/page.tsx:129-146 | Two lines with the same first move give one arrow, styled by the line stored first. |
| Js.IndexOf | src/app/page.tsx:85 | `indexOf` answers -1 exactly when the token is absent, and otherwise the first index holding it. |
| Js.JoinSplit | src/app/page.tsx:78 | Splitting at a character and joining back gives the original text. |
| Js.SplitJoin | src/app/page.tsx:180 | Joining pieces without the separator and splitting again gives the pieces back. |
| Js.ParseIntText | src/app/page.tsx:106 | `parseInt` reads the decimal text of every integer back as that integer. |
| Js.ToNumberText | src/app/page.tsx:114 | The `Number` coercion of `lineId - 1` reads the decimal text of every integer back as that integer. |
| Js.Slice | src/app/page.tsx:177-178 | `slice` within bounds is the sub-sequence, and never longer than its input. |

## Left out

- Rendering: the JSX, the evaluation bar and the line list (`src/app/page.tsx:324-433`) are presentation. The model keeps only the position last handed to the board (`board`).
- Worker start-up: creating the worker, posting `uci` and the `setoption` commands (`src/app/page.tsx:66-70`, `153-157`) are I/O outside the model. The message handler starts at `uciok`.
- Keyboard handling and `flipBoard` (`src/app/page.tsx:159-173`) only dispatch to `goBackward` and `goForward` or flip the display.
- The chess.js rules engine: move legality, PGN parsing, FEN and `history({verbose: true})` are a supplied `Rules` record. Replaying a stored move in `goForward` is assumed to succeed.
- `getScoreText` lives in another file. It is a supplied function of the mate flag and the score, and its format is not modelled.
- React state: `useStateWithRef` is assumed to update its ref synchronously, so `customMovesRef` and `bestLinesRef` always hold the value last set. Re-render scheduling is not modelled.
- Logging: the message handler's `console.log` of every message (`src/app/page.tsx:70`) is I/O with no effect on state.
- Concurrency: engine messages are handled one at a time in arrival order.
- Numbers: `Js.Number` is an exact real or `NaN`. Floating-point rounding, `Infinity` and `-0` are not modelled.
- Js.ParseInt: reads decimal digits only. It does not model a `0x` prefix, which no engine token carries.
- Js.ToNumber: reads signed decimal integers only. It does not model fractions, exponents, `Infinity` or hexadecimal text, which no engine token carries.
- Arrow colour, text colour, font size and weight are constants of the page, so an arrow keeps only its squares, width and text.
- Timeline.GoToEnd: the loop is given an explicit iteration bound (`fuel`). `None` stands for "still looping", and the hang is proved for every bound.
- Older chess.js versions answer `null` for an illegal dragged move instead of throwing. Both are a refused move (`None`).
- Timeline.UpdateBoard: a game is the list of moves played from the standard start position. chess.js also loads a PGN whose `[SetUp "1"]` and `[FEN …]` headers start it elsewhere; the page still posts `position startpos moves …` (`src/app/page.tsx:183-185`), which is then not the live game. Such games are not modelled, so "the engine is told the live game" holds only for games from the start position.
- Timeline.Analyze: for the same reason a loaded PGN is taken to start from the standard position; a `FEN` header's starting position is not modelled.
- Parser.GetMoveObjects: assumes `move` throws on a code it refuses. With a chess.js that answers `null` instead, the loop at `src/app/page.tsx:42-44` would push `null` and keep going, and the later `undo` loop would take back more moves than were played. That behaviour is not modelled.

## Findings

| source | as written | input that shows it | evidently intended | confidence | as-written member | corrected member |
|---|---|---|---|---|---|---|
| src/app/page.tsx:282-289 | The loop of `goToEnd` continues while either cursor is short of its end. But while a branch exists, `goForward` only advances the branch cursor, so the mainline cursor can never reach its end. | Load `1. e4 e5`, step back once, drag a piece (branch of one move, mainline cursor 1 of 2), then press "jump to end": the loop never terminates. | Step forward while `goForward` has a move to play, then synchronise once. | high; not executed | Timeline.HangScenario | Timeline.GoToEndFixed |

=== FILE: arrows.dfy ===
/** The arrow projector: the arrows drawn on the board, one per distinct
    first move among the stored lines, in the store's iteration order. */
module Arrows {
  import opened Wrappers
  import opened LineStore
  import Js

  /** An arrow for one candidate line: its squares, stroke width and label.
      Colour and font are constants of the page and are not part of the model. */
  datatype Arrow = Arrow(from: string, to: string, width: Js.Number, text: string)

  /** A line whose first move can be read. */
  predicate Drawable(e: Entry) {
    |e.line.moves| > 0
  }

  predicate AllDrawable(st: Store) {
    forall i :: 0 <= i < |st| ==> Drawable(st[i])
  }

  /** The code of a line's first move, the key arrows are deduplicated on. */
  function FirstCode(e: Entry): string
    requires Drawable(e)
  {
    e.line.moves[0].lan
  }

  /** `16 - 2 * index`: lines of better rank are drawn thicker. */
  function Width(key: Js.Number): Js.Number {
    match key
    case Finite(x) => Js.Finite(16.0 - 2.0 * x)
    case NaN => Js.NaN
  }

  /** Better-ranked lines are drawn strictly thicker: the line at rank key 0
      is 16 wide and each rank below it is 2 thinner. */
  lemma WidthByRank(k1: Js.Number, k2: Js.Number)
    requires k1.Finite? && k2.Finite?
    ensures Width(Js.Finite(0.0)) == Js.Finite(16.0)
    ensures Width(k1).Finite? && Width(k2).Finite?
    ensures Width(k1).value - Width(k2).value == 2.0 * (k2.value - k1.value)
    ensures k1.value < k2.value ==> Width(k1).value > Width(k2).value
  {
  }

  function ArrowOf(e: Entry): Arrow
    requires Drawable(e)
  {
    Arrow(e.line.moves[0].from, e.line.moves[0].to, Width(e.key), e.line.scoreText)
  }

  /** The projection loop from entry `i` on, `seen` holding the first-move
      codes already drawn. Reading the first move of a line with no moves
      throws, which ends the whole projection: `None`. */
  function ProjectFrom(st: Store, i: nat, seen: set<string>): Option<seq<Arrow>>
    requires i <= |st|
    decreases |st| - i
  {
    if i == |st| then Some([])
    else if !Drawable(st[i]) then None
    else if FirstCode(st[i]) in seen then ProjectFrom(st, i + 1, seen)
    else
      match ProjectFrom(st, i + 1, seen + {FirstCode(st[i])})
      case None => None
      case Some(rest) => Some([ArrowOf(st[i])] + rest)
  }

  /** The arrows for a store, or `None` when the projection throws. */
  function Project(st: Store): Option<seq<Arrow>> {
    ProjectFrom(st, 0, {})
  }

  // ---------------------------------------------------------------------
  // An independent description of the arrows: one per first occurrence

  /** Entry `i` is the first whose first move has its code. */
  predicate IsFirst(st: Store, i: nat)
    requires AllDrawable(st) && i < |st|
  {
    forall j :: 0 <= j < i ==> FirstCode(st[j]) != FirstCode(st[i])
  }

  /** The first occurrences at or after `i`, in increasing order. */
  function Kept(st: Store, i: nat): seq<nat>
    requires AllDrawable(st) && i <= |st|
    decreases |st| - i
  {
    if i == |st| then []
    else (if IsFirst(st, i) then [i] else []) + Kept(st, i + 1)
  }

  function ArrowsOf(st: Store, ks: seq<nat>): seq<Arrow>
    requires AllDrawable(st)
    requires forall k :: 0 <= k < |ks| ==> ks[k] < |st|
  {
    if |ks| == 0 then [] else [ArrowOf(st[ks[0]])] + ArrowsOf(st, ks[1..])
  }

  /** The codes of the first moves of entries before `i`. */
  function CodesBefore(st: Store, i: nat): set<string>
    requires AllDrawable(st) && i <= |st|
  {
    set j | 0 <= j < i :: FirstCode(st[j])
  }

  /** The projection throws exactly when some stored line has no moves. */
  lemma {:induction false} ProjectFromFails(st: Store, i: nat, seen: set<string>)
    requires i <= |st|
    ensures ProjectFrom(st, i, seen).Some? <==> forall j :: i <= j < |st| ==> Drawable(st[j])
    decreases |st| - i
  {
    if i < |st| && Drawable(st[i]) {
      ProjectFromFails(st, i + 1, seen);
      ProjectFromFails(st, i + 1, seen + {FirstCode(st[i])});
    }
  }

  lemma ProjectFails(st: Store)
    ensures Project(st).Some? <==> AllDrawable(st)
  {
    ProjectFromFails(st, 0, {});
  }

  /** The projection draws, in store order, exactly the first occurrence of
      each first-move code. */
  lemma ProjectKeepsFirsts(st: Store)
    requires AllDrawable(st)
    ensures KeptInRange(st, 0)
    ensures Project(st) == Some(ArrowsOf(st, Kept(st, 0)))
  {
    assert CodesBefore(st, 0) == {};
    ProjectFromKept(st, 0);
  }

  lemma {:induction false} ProjectFromKept(st: Store, i: nat)
    requires AllDrawable(st) && i <= |st|
    ensures KeptInRange(st, i)
    ensures ProjectFrom(st, i, CodesBefore(st, i)) == Some(ArrowsOf(st, Kept(st, i)))
    decreases |st| - i
  {
    KeptSpec(st, i);
    if i < |st| {
      var code := FirstCode(st[i]);
      var seen := CodesBefore(st, i);
      ProjectFromKept(st, i + 1);
      assert CodesBefore(st, i + 1) == seen + {code};
      assert IsFirst(st, i) <==> code !in seen;
      if code !in seen {
        var ks := [i] + Kept(st, i + 1);
        assert Kept(st, i) == ks;
        assert ks[1..] == Kept(st, i + 1);
        assert ArrowsOf(st, ks) == [ArrowOf(st[i])] + ArrowsOf(st, Kept(st, i + 1));
      } else {
        assert seen + {code} == seen;
        assert Kept(st, i) == Kept(st, i + 1);
      }
    }
  }

  predicate KeptInRange(st: Store, i: nat)
    requires AllDrawable(st) && i <= |st|
  {
    forall k :: 0 <= k < |Kept(st, i)| ==> Kept(st, i)[k] < |st|
  }

  /** The kept indices from `i` on: in range, increasing, and exactly the
      first occurrences. */
  lemma {:induction false} KeptSpec(st: Store, i: nat)
    requires AllDrawable(st) && i <= |st|
    ensures forall k :: 0 <= k < |Kept(st, i)| ==> i <= Kept(st, i)[k] < |st|
    ensures forall k, l :: 0 <= k < l < |Kept(st, i)| ==> Kept(st, i)[k] < Kept(st, i)[l]
    ensures forall j :: i <= j < |st| ==> (j in Kept(st, i) <==> IsFirst(st, j))
    ensures |Kept(st, i)| <= |st| - i
    decreases |st| - i
  {
    if i < |st| {
      KeptSpec(st, i + 1);
    }
  }

  /** Every code among the stored first moves has an earliest occurrence. */
  lemma {:induction false} EarliestOccurrence(st: Store, i: nat) returns (j: nat)
    requires AllDrawable(st) && i < |st|
    ensures j <= i && FirstCode(st[j]) == FirstCode(st[i]) && IsFirst(st, j)
    decreases i
  {
    if IsFirst(st, i) {
      j := i;
    } else {
      var k :| 0 <= k < i && FirstCode(st[k]) == FirstCode(st[i]);
      j := EarliestOccurrence(st, k);
    }
  }

  /** The drawn arrows come from lines with pairwise different first moves,
      there are no more of them than stored lines, and every stored first
      move is among them, drawn from its earliest line. */
  lemma ArrowsDeduplicated(st: Store)
    requires AllDrawable(st)
    ensures var ks := Kept(st, 0);
      && |ks| <= |st|
      && (forall k :: 0 <= k < |ks| ==> ks[k] < |st|)
      && (forall k, l :: 0 <= k < l < |ks| ==> FirstCode(st[ks[k]]) != FirstCode(st[ks[l]]))
      && (forall i :: 0 <= i < |st| ==> exists k :: 0 <= k < |ks| && ks[k] <= i && FirstCode(st[ks[k]]) == FirstCode(st[i]))
  {
    var ks := Kept(st, 0);
    KeptSpec(st, 0);
    forall k, l | 0 <= k < l < |ks| ensures FirstCode(st[ks[k]]) != FirstCode(st[ks[l]]) {
      assert ks[l] in ks;
      assert IsFirst(st, ks[l]);
    }
    forall i | 0 <= i < |st|
      ensures exists k :: 0 <= k < |ks| && ks[k] <= i && FirstCode(st[ks[k]]) == FirstCode(st[i])
    {
      var j := EarliestOccurrence(st, i);
      assert j in ks;
      var k :| 0 <= k < |ks| && ks[k] == j;
    }
  }

  /** Two lines recommending the same first move draw one arrow, styled by
      the line stored first. */
  lemma SameFirstMoveOneArrow(a: Entry, b: Entry)
    requires Drawable(a) && Drawable(b) && FirstCode(a) == FirstCode(b)
    ensures Project([a, b]) == Some([ArrowOf(a)])
  {
    var st := [a, b];
    assert st[0] == a && st[1] == b;
    var c := FirstCode(a);
    assert ProjectFrom(st, 2, {c}) == Some([]);
    assert ProjectFrom(st, 1, {c}) == Some([]);
    var none: set<string> := {};
    assert none + {c} == {c};
    assert ProjectFrom(st, 0, {}) == Some([ArrowOf(a)] + []);
    assert [ArrowOf(a)] + [] == [ArrowOf(a)];
    assert Project(st) == ProjectFrom(st, 0, {});
  }
}

=== FILE: chess.dfy ===
/** The rules engine the board delegates to (chess.js). It is not
    implemented here: a game is the stack of moves played on it since the
    standard start position (a game set up from another position is not
    modelled), and every rules question is a capability the caller hands
    in. */
module Chess {
  import opened Wrappers

  datatype Side = White | Black

  /** A ply as the rules engine reports it: origin and destination squares,
      the long-algebraic code ("e2e4") and the display notation ("e4"). */
  datatype Move = Move(from: string, to: string, lan: string, san: string)

  /** The moves applied to the live game, oldest first. */
  type Game = seq<Move>

  /** What loading a PGN text does to the live game: either every move of
      the text is now the game, or the engine throws, leaving behind whatever
      game it had reached (the old one when the text does not parse, a
      partly replayed one when a move of it is illegal). */
  datatype PgnLoad = Loaded(moves: seq<Move>) | Failed(left: Game)

  /** The rules engine's capabilities, as total functions of the game.
      `None` stands for a move the engine refuses (it throws, or for a
      dragged piece it may also answer null). */
  datatype Rules = Rules(
    playCode: (Game, string) -> Option<Move>,
    playSquares: (Game, string, string) -> Option<Move>,
    turn: Game -> Side,
    loadPgn: (Game, string) -> PgnLoad)

  /** Taking back the last move; on an empty game the engine does nothing. */
  function Undo(g: Game): Game {
    if |g| == 0 then g else g[..|g| - 1]
  }

  /** Taking back `k` moves one at a time. */
  function UndoTimes(g: Game, k: nat): Game
    decreases k
  {
    if k == 0 then g else UndoTimes(Undo(g), k - 1)
  }

  /** Taking back as many moves as were just played restores the game. */
  lemma {:induction false} UndoTimesPlayed(g: Game, played: seq<Move>)
    ensures UndoTimes(g + played, |played|) == g
    decreases |played|
  {
    if |played| > 0 {
      var last := |played| - 1;
      assert Undo(g + played) == g + played[..last];
      UndoTimesPlayed(g, played[..last]);
    }
  }
}

=== FILE: js.dfy ===
/** The few JavaScript built-ins the analysis board leans on, with the
    semantics the language gives them: `indexOf` answering -1, `slice`
    clamping its bounds, `split`/`join` on a one-character separator,
    `parseInt` and the `Number` coercion behind `"3" - 1`. */
module Js {
  import opened Wrappers

  /** `xs.indexOf(x)`: the first index holding `x`, or -1 when `x` is absent. */
  function IndexOf<T(==)>(xs: seq<T>, x: T): (r: int)
    ensures -1 <= r < |xs|
    ensures r == -1 <==> x !in xs
    ensures 0 <= r ==> xs[r] == x && forall j :: 0 <= j < r ==> xs[j] != x
  {
    if |xs| == 0 then -1
    else if xs[0] == x then 0
    else
      var r := IndexOf(xs[1..], x);
      assert x !in xs[1..] ==> x !in xs by {
        assert xs == [xs[0]] + xs[1..];
      }
      if r == -1 then -1 else r + 1
  }

  /** The first index holding `x` is the answer of `indexOf`. */
  lemma IndexOfFirst<T>(xs: seq<T>, x: T, i: nat)
    requires i < |xs| && xs[i] == x
    requires forall j :: 0 <= j < i ==> xs[j] != x
    ensures IndexOf(xs, x) == i
  {
  }

  /** `xs[i]`, which is `undefined` outside the array. */
  function At<T>(xs: seq<T>, i: int): Option<T> {
    if 0 <= i < |xs| then Some(xs[i]) else None
  }

  /** `xs.slice(lo, hi)` for non-negative bounds: both are clamped to the length. */
  function Slice<T>(xs: seq<T>, lo: nat, hi: nat): (r: seq<T>)
    ensures hi <= |xs| && lo <= hi ==> r == xs[lo..hi]
    ensures |r| <= |xs|
  {
    var h := if hi <= |xs| then hi else |xs|;
    var l := if lo <= h then lo else h;
    xs[l..h]
  }

  /** `s.startsWith(p)`. */
  predicate StartsWith(s: string, p: string) {
    |p| <= |s| && s[..|p|] == p
  }

  /** `s.split(sep)` for a one-character separator: the pieces between the
      separators, empty pieces included, so that `"".split(" ")` is `[""]`. */
  function Split(s: string, sep: char): (r: seq<string>)
    ensures |r| >= 1
    decreases |s|
  {
    if |s| == 0 then [""]
    else if s[0] == sep then [""] + Split(s[1..], sep)
    else
      var rest := Split(s[1..], sep);
      [[s[0]] + rest[0]] + rest[1..]
  }

  /** `xs.join(sep)`: the pieces with one separator between neighbours. */
  function Join(xs: seq<string>, sep: char): string
    decreases |xs|
  {
    if |xs| == 0 then ""
    else if |xs| == 1 then xs[0]
    else xs[0] + [sep] + Join(xs[1..], sep)
  }

  /** A join begins with its first piece. */
  lemma JoinFirst(xs: seq<string>, sep: char)
    requires |xs| >= 1
    ensures |xs[0]| <= |Join(xs, sep)| && Join(xs, sep)[..|xs[0]|] == xs[0]
  {
    if |xs| > 1 {
      assert Join(xs, sep) == xs[0] + ([sep] + Join(xs[1..], sep));
    }
  }

  /** Joining the pieces of a split gives the original string back. */
  lemma {:induction false} JoinSplit(s: string, sep: char)
    ensures Join(Split(s, sep), sep) == s
    decreases |s|
  {
    if |s| > 0 {
      var rest := Split(s[1..], sep);
      JoinSplit(s[1..], sep);
      if s[0] == sep {
        assert Split(s, sep) == [""] + rest;
        assert Join(Split(s, sep), sep) == "" + [sep] + Join(rest, sep);
      } else {
        var r := Split(s, sep);
        assert r == [[s[0]] + rest[0]] + rest[1..];
        if |rest| == 1 {
          assert Join(r, sep) == [s[0]] + rest[0];
          assert Join(rest, sep) == rest[0];
        } else {
          assert r[1..] == rest[1..];
          assert Join(rest, sep) == rest[0] + [sep] + Join(rest[1..], sep);
          assert Join(r, sep) == [s[0]] + rest[0] + [sep] + Join(rest[1..], sep);
        }
      }
    }
  }

  /** Splitting a join of separator-free pieces recovers the pieces. */
  lemma {:induction false} SplitJoin(xs: seq<string>, sep: char)
    requires |xs| >= 1
    requires forall k :: 0 <= k < |xs| ==> sep !in xs[k]
    ensures Split(Join(xs, sep), sep) == xs
    decreases |xs|
  {
    if |xs| == 1 {
      SplitFree(xs[0], sep);
    } else {
      var tail := Join(xs[1..], sep);
      SplitJoin(xs[1..], sep);
      SplitPrefix(xs[0], tail, sep);
    }
  }

  /** A separator-free string splits into itself alone. */
  lemma {:induction false} SplitFree(s: string, sep: char)
    requires sep !in s
    ensures Split(s, sep) == [s]
    decreases |s|
  {
    if |s| > 0 {
      assert sep !in s[1..] by {
        assert s == [s[0]] + s[1..];
      }
      SplitFree(s[1..], sep);
      assert s[0] != sep;
      assert Split(s, sep) == [[s[0]] + Split(s[1..], sep)[0]] + Split(s[1..], sep)[1..];
      assert [s[0]] + s[1..] == s;
    }
  }

  /** A separator-free piece in front of a separator becomes the first piece. */
  lemma {:induction false} SplitPrefix(p: string, tail: string, sep: char)
    requires sep !in p
    ensures Split(p + [sep] + tail, sep) == [p] + Split(tail, sep)
    decreases |p|
  {
    if |p| == 0 {
      assert p + [sep] + tail == [sep] + tail;
      assert ([sep] + tail)[1..] == tail;
    } else {
      var s := p + [sep] + tail;
      assert s[0] == p[0];
      assert s[1..] == p[1..] + [sep] + tail;
      assert sep !in p[1..] by {
        assert p == [p[0]] + p[1..];
      }
      SplitPrefix(p[1..], tail, sep);
      assert [p[0]] + p[1..] == p;
    }
  }

  // ---------------------------------------------------------------------
  // Numbers

  /** A JavaScript number as the board uses it: an exact value or NaN.
      Infinities, the sign of zero and rounding are not represented. */
  datatype Number = Finite(value: real) | NaN {

    function Negate(): (r: Number)
      ensures r.Finite? <==> Finite?
    {
      match this
      case Finite(x) => Finite(-x)
      case NaN => NaN
    }

    function Minus(k: real): (r: Number)
      ensures r.Finite? <==> Finite?
    {
      match this
      case Finite(x) => Finite(x - k)
      case NaN => NaN
    }

    function Over(d: real): (r: Number)
      requires d != 0.0
      ensures r.Finite? <==> Finite?
    {
      match this
      case Finite(x) => Finite(x / d)
      case NaN => NaN
    }
  }

  predicate IsDigit(c: char) {
    '0' <= c <= '9'
  }

  /** The characters JavaScript strips as white space before a number. */
  predicate IsSpace(c: char) {
    || c == ' ' || c == '\t' || c == '\n' || c == '\r'
    || c == '\U{000B}' || c == '\U{000C}' || c == '\U{00A0}' || c == '\U{1680}'
    || ('\U{2000}' <= c <= '\U{200A}')
    || c == '\U{2028}' || c == '\U{2029}' || c == '\U{202F}' || c == '\U{205F}'
    || c == '\U{3000}' || c == '\U{FEFF}'
  }

  function TrimStart(s: string): (r: string)
    ensures |r| <= |s| && r == s[|s| - |r|..]
    ensures |r| > 0 ==> !IsSpace(r[0])
  {
    if |s| > 0 && IsSpace(s[0]) then TrimStart(s[1..]) else s
  }

  function TrimEnd(s: string): (r: string)
    ensures |r| <= |s| && r == s[..|r|]
    ensures |r| > 0 ==> !IsSpace(r[|r| - 1])
  {
    if |s| > 0 && IsSpace(s[|s| - 1]) then TrimEnd(s[..|s| - 1]) else s
  }

  /** The length of the run of decimal digits `s` begins with. */
  function DigitRun(s: string): (n: nat)
    ensures n <= |s|
    ensures forall k :: 0 <= k < n ==> IsDigit(s[k])
    ensures n < |s| ==> !IsDigit(s[n])
  {
    if |s| > 0 && IsDigit(s[0]) then 1 + DigitRun(s[1..]) else 0
  }

  /** The value of a string of decimal digits, most significant first. */
  function DigitsValue(s: string): nat
    requires forall k :: 0 <= k < |s| ==> IsDigit(s[k])
  {
    if |s| == 0 then 0
    else
      assert IsDigit(s[|s| - 1]);
      DigitsValue(s[..|s| - 1]) * 10 + (s[|s| - 1] as int - '0' as int)
  }

  /** A sign character and what follows it: `-` negates, `+` is dropped. */
  function SignOf(s: string): (real, string) {
    if |s| > 0 && s[0] == '-' then (-1.0, s[1..])
    else if |s| > 0 && s[0] == '+' then (1.0, s[1..])
    else (1.0, s)
  }

  /** `parseInt(x)` without a radix: leading white space, an optional sign,
      then the longest run of decimal digits; NaN when there is none.
      `undefined` reads as the text "undefined", which has no digits. */
  function ParseInt(x: Option<string>): Number {
    match x
    case None => NaN
    case Some(s) =>
      var signed := SignOf(TrimStart(s));
      LeadingDigits(signed.0, signed.1)
  }

  /** The signed value of the run of digits `body` begins with; NaN when
      there is none. */
  function LeadingDigits(sign: real, body: string): Number {
    var n := DigitRun(body);
    if n == 0 then NaN else Finite(sign * DigitsValue(body[..n]) as real)
  }

  /** `Number(x)` as `x - 1` applies it to a string: white space around the
      text is ignored, empty text is 0, an optionally signed run of decimal
      digits is its value, anything else is NaN. `undefined` is NaN. */
  function ToNumber(x: Option<string>): Number {
    match x
    case None => NaN
    case Some(s) =>
      var t := TrimEnd(TrimStart(s));
      if t == "" then Finite(0.0)
      else
        var (sign, body) := SignOf(t);
        if |body| > 0 && DigitRun(body) == |body| then Finite(sign * DigitsValue(body) as real)
        else NaN
  }

  // ---------------------------------------------------------------------
  // Decimal text, the form in which an engine writes integers

  function DigitChar(d: nat): (c: char)
    requires d < 10
    ensures IsDigit(c) && c as int - '0' as int == d
  {
    ('0' as int + d) as char
  }

  /** The canonical decimal text of a natural number. */
  function NatText(n: nat): (s: string)
    ensures |s| >= 1
    ensures forall k :: 0 <= k < |s| ==> IsDigit(s[k])
  {
    if n < 10 then [DigitChar(n)] else NatText(n / 10) + [DigitChar(n % 10)]
  }

  /** The canonical decimal text of an integer, with `-` for negatives. */
  function IntText(n: int): string {
    if n < 0 then "-" + NatText(-n) else NatText(n)
  }

  /** The decimal text of two small numbers, spelled out. */
  lemma SmallTexts()
    ensures IntText(1) == "1" && IntText(25) == "25"
  {
    assert NatText(2) == "2";
    assert NatText(25) == NatText(2) + [DigitChar(5)];
  }

  /** Reading back the text of a natural number gives the number. */
  lemma {:induction false} NatTextValue(n: nat)
    ensures DigitsValue(NatText(n)) == n
  {
    if n >= 10 {
      var s := NatText(n);
      NatTextValue(n / 10);
      assert s[..|s| - 1] == NatText(n / 10);
    }
  }

  /** `parseInt` inverts the decimal text of every integer. */
  lemma ParseIntText(n: int)
    ensures ParseInt(Some(IntText(n))) == Finite(n as real)
  {
    var digits := NatText(Magnitude(n));
    assert SignOf(TrimStart(IntText(n))) == (if n < 0 then -1.0 else 1.0, digits)
      && DigitRun(digits) == |digits| && DigitsValue(digits) == Magnitude(n) by {
      IntTextParts(n);
    }
    if n < 0 {
      ParseIntDigits(IntText(n), -1.0, digits, -n, n);
    } else {
      ParseIntDigits(IntText(n), 1.0, digits, n, n);
    }
  }

  /** Text whose sign is followed by nothing but the digits of `v` parses to
      the signed value `n`. */
  lemma ParseIntDigits(t: string, sign: real, digits: string, v: nat, n: int)
    requires SignOf(TrimStart(t)) == (sign, digits)
    requires |digits| > 0 && DigitRun(digits) == |digits| && DigitsValue(digits) == v
    requires sign * v as real == n as real
    ensures ParseInt(Some(t)) == Finite(n as real)
  {
    assert digits[..DigitRun(digits)] == digits;
  }

  /** The `Number` coercion inverts the decimal text of every integer too. */
  lemma ToNumberText(n: int)
    ensures ToNumber(Some(IntText(n))) == Finite(n as real)
  {
    IntTextParts(n);
    SignedValue(n);
  }

  function Magnitude(n: int): nat {
    if n < 0 then -n else n
  }

  /** The text of an integer has no white space around it, and splits into
      its sign and the digits of its magnitude. */
  lemma IntTextParts(n: int)
    ensures TrimStart(IntText(n)) == IntText(n)
    ensures TrimEnd(IntText(n)) == IntText(n)
    ensures SignOf(IntText(n)) == (if n < 0 then -1.0 else 1.0, NatText(Magnitude(n)))
    ensures DigitRun(NatText(Magnitude(n))) == |NatText(Magnitude(n))|
    ensures DigitsValue(NatText(Magnitude(n))) == Magnitude(n)
  {
    var t := IntText(n);
    var digits := NatText(Magnitude(n));
    NatTextValue(Magnitude(n));
    assert !IsSpace(t[0]);
    assert !IsSpace(t[|t| - 1]);
  }

  lemma SignedValue(n: int)
    ensures (if n < 0 then -1.0 else 1.0) * Magnitude(n) as real == n as real
  {
  }
}

=== FILE: linestore.dfy ===
/** The candidate line store: the JavaScript `Map` from rank to engine line
    that the board rebuilds on every analysis pass. A `Map` remembers the
    order in which keys were first inserted; setting an existing key
    replaces its line in place. */
module LineStore {
  import opened Wrappers
  import opened Chess
  import Js

  /** One ranked line of analysis: the predicted continuation, whether the
      score is a mate count, the White-relative score and its display text. */
  datatype Line = Line(moves: seq<Move>, mate: bool, score: Js.Number, scoreText: string)

  datatype Entry = Entry(key: Js.Number, line: Line)

  /** The entries in insertion order. Keys compare as JavaScript's
      SameValueZero does, which for this number model is equality. */
  type Store = seq<Entry>

  predicate KeysDistinct(st: Store) {
    forall i, j :: 0 <= i < j < |st| ==> st[i].key != st[j].key
  }

  /** The keys in iteration order. */
  function Keys(st: Store): (r: seq<Js.Number>)
    ensures |r| == |st|
    ensures forall i :: 0 <= i < |st| ==> r[i] == st[i].key
  {
    if |st| == 0 then [] else [st[0].key] + Keys(st[1..])
  }

  /** `map.get(k)`. */
  function Get(st: Store, k: Js.Number): (r: Option<Line>)
    ensures r.Some? <==> k in Keys(st)
  {
    if |st| == 0 then None
    else if st[0].key == k then Some(st[0].line)
    else Get(st[1..], k)
  }

  /** `map.set(k, v)`: an existing key has its line replaced in place, a new
      key is appended. */
  function Set(st: Store, k: Js.Number, v: Line): Store {
    if |st| == 0 then [Entry(k, v)]
    else if st[0].key == k then [Entry(k, v)] + st[1..]
    else [st[0]] + Set(st[1..], k, v)
  }

  /** After `set`, `k` maps to `v` and every other key keeps its line. */
  lemma {:induction false} SetGet(st: Store, k: Js.Number, v: Line, k': Js.Number)
    ensures Get(Set(st, k, v), k') == if k' == k then Some(v) else Get(st, k')
  {
    if |st| > 0 {
      if st[0].key == k {
        GetUnroll(Entry(k, v), st[1..], k');
        GetUnroll(st[0], st[1..], k');
        assert st == [st[0]] + st[1..];
      } else {
        SetGet(st[1..], k, v, k');
        GetUnroll(st[0], Set(st[1..], k, v), k');
        GetUnroll(st[0], st[1..], k');
        assert st == [st[0]] + st[1..];
      }
    }
  }

  /** `set` keeps the iteration order of the keys, appending a new key last. */
  lemma {:induction false} SetKeys(st: Store, k: Js.Number, v: Line)
    ensures k in Keys(st) ==> Keys(Set(st, k, v)) == Keys(st)
    ensures k !in Keys(st) ==> Keys(Set(st, k, v)) == Keys(st) + [k]
  {
    if |st| > 0 {
      KeysUnroll(st[0], st[1..]);
      assert st == [st[0]] + st[1..];
      if st[0].key == k {
        KeysUnroll(Entry(k, v), st[1..]);
      } else {
        SetKeys(st[1..], k, v);
        KeysUnroll(st[0], Set(st[1..], k, v));
      }
    }
  }

  /** `set` never duplicates a key. */
  lemma SetDistinct(st: Store, k: Js.Number, v: Line)
    requires KeysDistinct(st)
    ensures KeysDistinct(Set(st, k, v))
  {
    var r := Set(st, k, v);
    SetKeys(st, k, v);
    var ks := Keys(st);
    assert forall i, j :: 0 <= i < j < |ks| ==> ks[i] != ks[j];
    forall i, j | 0 <= i < j < |r| ensures r[i].key != r[j].key {
      assert r[i].key == Keys(r)[i] && r[j].key == Keys(r)[j];
    }
  }

  lemma GetUnroll(e: Entry, st: Store, k: Js.Number)
    ensures Get([e] + st, k) == if e.key == k then Some(e.line) else Get(st, k)
  {
    assert ([e] + st)[1..] == st;
  }

  lemma KeysUnroll(e: Entry, st: Store)
    ensures Keys([e] + st) == [e.key] + Keys(st)
  {
    assert ([e] + st)[1..] == st;
  }
}

=== FILE: parser.dfy ===
/** The engine output parser: what the board does with each line the engine
    writes, and the whole board as one state driven by a sequential fold
    over the engine's messages. */
module Parser {
  import opened Wrappers
  import opened Chess
  import opened LineStore
  import Js
  import Arrows
  import Timeline

  /** The collaborators the parser calls but this model does not define:
      the rules engine and the score formatter. */
  datatype Env = Env(rules: Rules, scoreText: (bool, Js.Number) -> string)

  /** The analysis side of the board: the side to move captured when the
      current pass began, the line store and the arrows on the board. */
  datatype Analysis = Analysis(turn: Side, lines: Store, arrows: seq<Arrows.Arrow>)

  datatype App = App(timeline: Timeline.State, analysis: Analysis)

  function InitialApp(): (a: App)
    ensures Timeline.Valid(a.timeline) && KeysDistinct(a.analysis.lines)
  {
    App(Timeline.Initial(), Analysis(White, [], []))
  }

  /** At most this many continuation moves are kept per line. */
  const MaxLineMoves := 15

  // ---------------------------------------------------------------------
  // getMoveObjects

  /** The moves the rules engine plays for `codes` one after another from
      `g`, up to the first one it refuses. */
  function PlayUntilRefused(rules: Rules, g: Game, codes: seq<string>): (played: seq<Move>)
    ensures |played| <= |codes|
    decreases |codes|
  {
    if |codes| == 0 then []
    else match rules.playCode(g, codes[0])
      case None => []
      case Some(m) => [m] + PlayUntilRefused(rules, g + [m], codes[1..])
  }

  /** Each played move is what the rules engine answers for its code on the
      game so far, and the first code left unplayed is one it refuses. */
  lemma {:induction false} PlayUntilRefusedSpec(rules: Rules, g: Game, codes: seq<string>)
    ensures var played := PlayUntilRefused(rules, g, codes);
      && (forall i :: 0 <= i < |played| ==> rules.playCode(g + played[..i], codes[i]) == Some(played[i]))
      && (|played| < |codes| ==> rules.playCode(g + played, codes[|played|]).None?)
    decreases |codes|
  {
    if |codes| > 0 && rules.playCode(g, codes[0]).Some? {
      var m := rules.playCode(g, codes[0]).value;
      var rest := PlayUntilRefused(rules, g + [m], codes[1..]);
      PlayUntilRefusedSpec(rules, g + [m], codes[1..]);
      PlayedStep(rules, g, codes, m, rest);
    } else if |codes| > 0 {
      assert g + [] == g;
    }
  }

  /** The inductive step: a first move played, then the rest from the game
      that move leads to. */
  lemma PlayedStep(rules: Rules, g: Game, codes: seq<string>, m: Move, rest: seq<Move>)
    requires |codes| > 0 && rules.playCode(g, codes[0]) == Some(m)
    requires |rest| <= |codes| - 1
    requires forall i :: 0 <= i < |rest| ==> rules.playCode((g + [m]) + rest[..i], codes[1..][i]) == Some(rest[i])
    requires |rest| < |codes| - 1 ==> rules.playCode((g + [m]) + rest, codes[1..][|rest|]).None?
    ensures var played := [m] + rest;
      && (forall i :: 0 <= i < |played| ==> rules.playCode(g + played[..i], codes[i]) == Some(played[i]))
      && (|played| < |codes| ==> rules.playCode(g + played, codes[|played|]).None?)
  {
    var played := [m] + rest;
    forall i | 0 <= i < |played|
      ensures rules.playCode(g + played[..i], codes[i]) == Some(played[i])
    {
      if i > 0 {
        PlayedPrefix(g, m, rest, i);
      } else {
        assert g + played[..0] == g;
      }
    }
    assert g + played == (g + [m]) + rest;
  }

  lemma PlayedPrefix(g: Game, m: Move, rest: seq<Move>, i: nat)
    requires 1 <= i <= |rest| + 1
    ensures g + ([m] + rest)[..i] == (g + [m]) + rest[..i - 1]
  {
    assert ([m] + rest)[..i] == [m] + rest[..i - 1];
  }

  /** The move a code stands for when the rules engine cannot replay it:
      squares cut from the code's characters, no display notation. */
  function Degraded(code: string): (m: Move)
    ensures m.lan == code && m.san == ""
    ensures |code| >= 2 ==> m.from == code[..2]
    ensures |code| >= 4 ==> m.to == code[2..4]
    ensures 2 <= |code| < 4 ==> m.to == code[2..]
    ensures |code| < 2 ==> m.from == code && m.to == ""
  {
    Move(Js.Slice(code, 0, 2), Js.Slice(code, 2, 4), code, "")
  }

  /** `getMoveObjects`: play the codes on the live game, take them all back,
      and answer the engine's moves if every code was played, otherwise a
      degraded move per code. Returns the moves and the game afterwards. */
  function GetMoveObjects(rules: Rules, g: Game, codes: seq<string>): (r: (seq<Move>, Game))
    ensures r.1 == g
    ensures |r.0| == |codes|
    ensures var played := PlayUntilRefused(rules, g, codes);
      |played| == |codes| ==> r.0 == played
    ensures var played := PlayUntilRefused(rules, g, codes);
      |played| < |codes| ==> forall i :: 0 <= i < |codes| ==> r.0[i] == Degraded(codes[i])
  {
    var played := PlayUntilRefused(rules, g, codes);
    var after := UndoTimes(g + played, |played|);
    UndoTimesPlayed(g, played);
    if |played| == |codes| then (played, after)
    else (seq(|codes|, i requires 0 <= i < |codes| => Degraded(codes[i])), after)
  }

  // ---------------------------------------------------------------------
  // One `info` line

  /** The shape the parser accepts: the fourth token is `seldepth`. */
  predicate Accepted(info: seq<string>) {
    Js.At(info, 3) == Some("seldepth")
  }

  /** The token after the first `multipv`; the first token when there is none. */
  function RankToken(info: seq<string>): Option<string> {
    Js.At(info, Js.IndexOf(info, "multipv") + 1)
  }

  /** Depth 1 of rank 1: the engine has started a new pass. */
  predicate NewPass(info: seq<string>) {
    Js.At(info, 2) == Some("1") && RankToken(info) == Some("1")
  }

  /** `lineId - 1`, the key the line is stored under. */
  function RankKey(info: seq<string>): Js.Number {
    Js.ToNumber(RankToken(info)).Minus(1.0)
  }

  /** The continuation: the tokens after the first `pv`, at most 15. */
  function PvTokens(info: seq<string>): seq<string> {
    var start := Js.IndexOf(info, "pv") + 1;
    Js.Slice(info, start, start + MaxLineMoves)
  }

  /** The continuation holds at most 15 tokens: those right after the first
      `pv`. With no `pv`, `indexOf` answers -1 and the tokens are taken from
      the very start of the message. */
  lemma PvTokensSpec(info: seq<string>)
    ensures |PvTokens(info)| <= MaxLineMoves
    ensures "pv" in info ==>
      var p := Js.IndexOf(info, "pv");
      PvTokens(info) == info[p + 1..if p + 1 + MaxLineMoves <= |info| then p + 1 + MaxLineMoves else |info|]
    ensures "pv" !in info ==> PvTokens(info) == info[..if MaxLineMoves <= |info| then MaxLineMoves else |info|]
  {
  }

  /** `parseInt(score value) / 100`, negated when Black was to move at the
      start of the pass: positive always favours White. The division happens
      for mate scores too. */
  function Score(info: seq<string>, turn: Side): Js.Number {
    var at := Js.IndexOf(info, "score");
    var raw := Js.ParseInt(Js.At(info, at + 2)).Over(100.0);
    if turn == Black then raw.Negate() else raw
  }

  /** The score type after the first `score` is `mate`. */
  predicate IsMate(info: seq<string>) {
    Js.At(info, Js.IndexOf(info, "score") + 1) == Some("mate")
  }

  /** The side to move the pass is scored for: captured from the live game
      when a new pass begins, otherwise the one captured before. */
  function PassTurn(env: Env, app: App, info: seq<string>): Side {
    if NewPass(info) then env.rules.turn(app.timeline.game) else app.analysis.turn
  }

  /** The line an accepted message stores: the continuation resolved on the
      live game, the mate flag, the White-relative score and its text. */
  function LineOf(env: Env, app: App, info: seq<string>): Line {
    var mate := IsMate(info);
    var score := Score(info, PassTurn(env, app, info));
    Line(GetMoveObjects(env.rules, app.timeline.game, PvTokens(info)).0, mate, score, env.scoreText(mate, score))
  }

  /** The analysis-progress branch of the message handler, on the message's
      tokens. An unaccepted shape changes nothing. Otherwise a new pass
      captures the side to move and clears lines and arrows; the line is
      stored under its rank key and the arrows are projected again, staying
      as they were when the projection throws. Resolving the continuation
      leaves the live game as it was. */
  function OnInfo(env: Env, app: App, info: seq<string>): (r: App)
    ensures !Accepted(info) ==> r == app
    ensures Accepted(info) ==>
      && r.timeline == app.timeline
      && r.analysis.turn == (if NewPass(info) then env.rules.turn(app.timeline.game) else app.analysis.turn)
  {
    if !Accepted(info) then app
    else
      var newPass := NewPass(info);
      var lines := if newPass then [] else app.analysis.lines;
      var arrows := if newPass then [] else app.analysis.arrows;
      var game := GetMoveObjects(env.rules, app.timeline.game, PvTokens(info)).1;
      var stored := Set(lines, RankKey(info), LineOf(env, app, info));
      var drawn := Arrows.Project(stored);
      App(app.timeline.(game := game),
          Analysis(PassTurn(env, app, info), stored, if drawn.Some? then drawn.value else arrows))
  }

  /** What an accepted message does to the store: its line is found under
      its rank key; on a new pass it is the only line; otherwise every other
      rank keeps its line, ranks keep their order, a rank not seen before in
      the pass goes last, and ranks stay distinct. */
  lemma OnInfoStores(env: Env, app: App, info: seq<string>)
    requires Accepted(info)
    ensures var r := OnInfo(env, app, info);
      && Get(r.analysis.lines, RankKey(info)) == Some(LineOf(env, app, info))
      && (NewPass(info) ==> r.analysis.lines == [Entry(RankKey(info), LineOf(env, app, info))])
      && (!NewPass(info) ==> forall k :: k != RankKey(info) ==> Get(r.analysis.lines, k) == Get(app.analysis.lines, k))
      && (!NewPass(info) && RankKey(info) in Keys(app.analysis.lines) ==> Keys(r.analysis.lines) == Keys(app.analysis.lines))
      && (!NewPass(info) && RankKey(info) !in Keys(app.analysis.lines) ==>
            Keys(r.analysis.lines) == Keys(app.analysis.lines) + [RankKey(info)])
      && (KeysDistinct(app.analysis.lines) ==> KeysDistinct(r.analysis.lines))
  {
    var lines := if NewPass(info) then [] else app.analysis.lines;
    var line := LineOf(env, app, info);
    SetKeys(lines, RankKey(info), line);
    SetGet(lines, RankKey(info), line, RankKey(info));
    forall k | k != RankKey(info) ensures Get(OnInfo(env, app, info).analysis.lines, k) == Get(lines, k) {
      SetGet(lines, RankKey(info), line, k);
    }
    if KeysDistinct(app.analysis.lines) {
      SetDistinct(lines, RankKey(info), line);
    }
  }

  /** The arrows after an accepted message: one per distinct first move of
      the stored lines when all of them have a move; otherwise the projection
      throws and the arrows stay as they were, or empty on a new pass. */
  lemma OnInfoArrows(env: Env, app: App, info: seq<string>)
    requires Accepted(info)
    ensures var r := OnInfo(env, app, info);
      && (Arrows.AllDrawable(r.analysis.lines) ==>
            && Arrows.KeptInRange(r.analysis.lines, 0)
            && r.analysis.arrows == Arrows.ArrowsOf(r.analysis.lines, Arrows.Kept(r.analysis.lines, 0)))
      && (!Arrows.AllDrawable(r.analysis.lines) ==>
            r.analysis.arrows == if NewPass(info) then [] else app.analysis.arrows)
  {
    var r := OnInfo(env, app, info);
    Arrows.ProjectFails(r.analysis.lines);
    if Arrows.AllDrawable(r.analysis.lines) {
      Arrows.ProjectKeepsFirsts(r.analysis.lines);
    }
  }

  /** The stored line keeps at most 15 moves, one per continuation token.
      They are the rules engine's moves when it plays every token; when it
      refuses one, every move is the degraded reading of its token. */
  lemma LineMoves(env: Env, app: App, info: seq<string>)
    ensures |LineOf(env, app, info).moves| == |PvTokens(info)| <= MaxLineMoves
    ensures var played := PlayUntilRefused(env.rules, app.timeline.game, PvTokens(info));
      |played| < |PvTokens(info)| ==>
        forall i :: 0 <= i < |PvTokens(info)| ==>
          LineOf(env, app, info).moves[i] == Degraded(PvTokens(info)[i])
    ensures var played := PlayUntilRefused(env.rules, app.timeline.game, PvTokens(info));
      |played| == |PvTokens(info)| ==> LineOf(env, app, info).moves == played
  {
    PvTokensSpec(info);
  }

  /** An engine score of `n` centipawns is stored as `n / 100` from White's
      point of view, negated when Black was to move. */
  lemma ScoreFromText(info: seq<string>, turn: Side, n: int)
    requires Js.At(info, Js.IndexOf(info, "score") + 2) == Some(Js.IntText(n))
    ensures Score(info, turn) == Js.Finite(if turn == Black then -(n as real / 100.0) else n as real / 100.0)
  {
    Js.ParseIntText(n);
    ScoreOfValue(info, turn, n as real);
  }

  /** A score token read as `x` is stored as `x / 100` from White's side. */
  lemma ScoreOfValue(info: seq<string>, turn: Side, x: real)
    requires Js.ParseInt(Js.At(info, Js.IndexOf(info, "score") + 2)) == Js.Finite(x)
    ensures Score(info, turn) == Js.Finite(if turn == Black then -(x / 100.0) else x / 100.0)
  {
  }

  /** The rank token of a message is read back as its number, one lower. */
  lemma RankKeyFromText(info: seq<string>, n: int)
    requires RankToken(info) == Some(Js.IntText(n))
    ensures RankKey(info) == Js.Finite(n as real - 1.0)
  {
    Js.ToNumberText(n);
  }

  /** A first progress line of a pass, as the engine writes it. */
  const SampleInfo: seq<string> := ["info", "depth", "1", "seldepth", "1", "multipv", "1",
                                    "score", "cp", "25", "nodes", "20", "pv", "e2e4", "e7e5"]

  /** A first progress line of a pass scoring 25 centipawns: the store then
      holds that one line, at rank key 0, scored 0.25 for White or -0.25 when
      Black is to move. */
  lemma FirstLineOfPass(env: Env, app: App)
    ensures var r := OnInfo(env, app, SampleInfo);
      && |r.analysis.lines| == 1
      && r.analysis.lines[0].key == Js.Finite(0.0)
      && !r.analysis.lines[0].line.mate
      && |r.analysis.lines[0].line.moves| == 2
      && r.analysis.lines[0].line.score
         == Js.Finite(if env.rules.turn(app.timeline.game) == Black then -0.25 else 0.25)
  {
    SampleShape();
    FirstLineOf(env, app, SampleInfo, 1, 25);
  }

  /** A new-pass message of rank `rank` whose score value is `cp` stores one
      line, keyed one below its rank, marked as a mate exactly when the score
      type is `mate`, with the value divided by 100 and seen from White. A
      mate count is divided by 100 like centipawns. */
  lemma FirstLineOf(env: Env, app: App, info: seq<string>, rank: int, cp: int)
    requires Accepted(info) && NewPass(info)
    requires RankToken(info) == Some(Js.IntText(rank))
    requires Js.At(info, Js.IndexOf(info, "score") + 2) == Some(Js.IntText(cp))
    ensures var r := OnInfo(env, app, info);
      && |r.analysis.lines| == 1
      && r.analysis.lines[0].key == Js.Finite(rank as real - 1.0)
      && r.analysis.lines[0].line.mate == IsMate(info)
      && |r.analysis.lines[0].line.moves| == |PvTokens(info)|
      && r.analysis.lines[0].line.score
         == Js.Finite(if env.rules.turn(app.timeline.game) == Black then -(cp as real / 100.0) else cp as real / 100.0)
  {
    var r := OnInfo(env, app, info);
    var line := LineOf(env, app, info);
    assert r.analysis.lines == [Entry(RankKey(info), line)] by {
      OnInfoStores(env, app, info);
    }
    assert RankKey(info) == Js.Finite(rank as real - 1.0) by {
      RankKeyFromText(info, rank);
    }
    assert line.score == Score(info, env.rules.turn(app.timeline.game));
    ScoreFromText(info, env.rules.turn(app.timeline.game), cp);
  }

  /** Where the sample's fields sit. */
  lemma SampleShape()
    ensures Accepted(SampleInfo) && NewPass(SampleInfo) && !IsMate(SampleInfo)
    ensures RankToken(SampleInfo) == Some(Js.IntText(1))
    ensures Js.At(SampleInfo, Js.IndexOf(SampleInfo, "score") + 2) == Some(Js.IntText(25))
    ensures |PvTokens(SampleInfo)| == 2
  {
    SampleRank();
    SampleScore();
    SamplePv();
    Js.SmallTexts();
  }

  /** No sample token before index 5 is `multipv`. */
  lemma MultipvFirstAt()
    ensures |SampleInfo| == 15 && SampleInfo[5] == "multipv"
    ensures SampleInfo[2] == "1" && SampleInfo[3] == "seldepth" && SampleInfo[6] == "1"
    ensures forall j :: 0 <= j < 5 ==> SampleInfo[j] != "multipv"
  {
  }

  /** No sample token before index 7 is `score`. */
  lemma ScoreFirstAt()
    ensures |SampleInfo| == 15 && SampleInfo[7] == "score"
    ensures SampleInfo[8] != "mate" && SampleInfo[9] == "25"
    ensures forall j :: 0 <= j < 7 ==> SampleInfo[j] != "score"
  {
    assert SampleInfo[1][0] == 'd';
  }

  /** No sample token before index 12 is `pv`. */
  lemma PvFirstAt()
    ensures |SampleInfo| == 15 && SampleInfo[12] == "pv"
    ensures forall j :: 0 <= j < 12 ==> SampleInfo[j] != "pv"
  {
    assert SampleInfo[8][0] == 'c';
    assert SampleInfo[9][0] == '2';
    assert SampleInfo[11][0] == '2';
  }

  lemma SampleRank()
    ensures Js.IndexOf(SampleInfo, "multipv") == 5
    ensures Accepted(SampleInfo) && NewPass(SampleInfo) && RankToken(SampleInfo) == Some("1")
  {
    MultipvFirstAt();
    Js.IndexOfFirst(SampleInfo, "multipv", 5);
    RankFields(SampleInfo);
  }

  lemma RankFields(info: seq<string>)
    requires Js.IndexOf(info, "multipv") == 5 && |info| > 6
    requires info[2] == "1" && info[3] == "seldepth" && info[6] == "1"
    ensures Accepted(info) && NewPass(info) && RankToken(info) == Some("1")
  {
  }

  lemma SampleScore()
    ensures Js.IndexOf(SampleInfo, "score") == 7
    ensures !IsMate(SampleInfo) && Js.At(SampleInfo, 9) == Some("25")
  {
    ScoreFirstAt();
    Js.IndexOfFirst(SampleInfo, "score", 7);
    ScoreFields(SampleInfo);
  }

  lemma ScoreFields(info: seq<string>)
    requires Js.IndexOf(info, "score") == 7 && |info| > 9
    requires info[8] != "mate" && info[9] == "25"
    ensures !IsMate(info) && Js.At(info, 9) == Some("25")
  {
  }

  lemma SamplePv()
    ensures |PvTokens(SampleInfo)| == 2
  {
    PvFirstAt();
    Js.IndexOfFirst(SampleInfo, "pv", 12);
    PvLength(SampleInfo, 12);
  }

  /** How many tokens follow a `pv` at index `p`, capped at 15. */
  lemma PvLength(info: seq<string>, p: nat)
    requires Js.IndexOf(info, "pv") == p
    ensures |PvTokens(info)| == if p + 1 + MaxLineMoves <= |info| then MaxLineMoves else |info| - p - 1
  {
  }

  // ---------------------------------------------------------------------
  // The message handler and the fold over the engine's messages

  /** `stockfish.onmessage`: `uciok` synchronises the position; a line that
      starts with `info depth` goes to the progress parser as space-separated
      tokens; everything else is ignored. */
  function OnMessage(env: Env, app: App, data: string): (r: App)
    ensures data == "uciok" ==> r == app.(timeline := Timeline.UpdateBoard(app.timeline))
    ensures data != "uciok" ==> r.timeline == app.timeline
    ensures data != "uciok" && !Js.StartsWith(data, "info depth") ==> r == app
  {
    if data == "uciok" then app.(timeline := Timeline.UpdateBoard(app.timeline))
    else if Js.StartsWith(data, "info depth") then OnInfo(env, app, Js.Split(data, ' '))
    else app
  }

  /** The engine's messages handled one at a time in arrival order. */
  function Run(env: Env, app: App, messages: seq<string>): App
    decreases |messages|
  {
    if |messages| == 0 then app
    else Run(env, OnMessage(env, app, messages[0]), messages[1..])
  }

  /** No sequence of engine messages breaks the timeline or duplicates a
      rank, and none touches the mainline, the branch or the live game. */
  lemma {:induction false} RunPreserves(env: Env, app: App, messages: seq<string>)
    requires Timeline.Valid(app.timeline) && KeysDistinct(app.analysis.lines)
    ensures var r := Run(env, app, messages);
      && Timeline.Valid(r.timeline) && KeysDistinct(r.analysis.lines)
      && r.timeline.history == app.timeline.history && r.timeline.customMoves == app.timeline.customMoves
      && r.timeline.moveIndex == app.timeline.moveIndex && r.timeline.numCustomMoves == app.timeline.numCustomMoves
      && r.timeline.game == app.timeline.game
    decreases |messages|
  {
    if |messages| > 0 {
      var next := OnMessage(env, app, messages[0]);
      if messages[0] != "uciok" && Js.StartsWith(messages[0], "info depth") {
        var info := Js.Split(messages[0], ' ');
        if Accepted(info) {
          OnInfoStores(env, app, info);
        }
      }
      RunPreserves(env, next, messages[1..]);
    }
  }
}

=== FILE: sync.dfy ===
/** The position synchronizer: how the board tells the engine, over the UCI
    text protocol, which position to analyse. */
module Sync {
  import opened Chess
  import Js

  const StopCommand := "stop"
  const GoCommand := "go depth 20"

  /** The long-algebraic codes of a move sequence, in order. */
  function Codes(ms: seq<Move>): (r: seq<string>)
    ensures |r| == |ms|
    ensures forall i :: 0 <= i < |ms| ==> r[i] == ms[i].lan
  {
    if |ms| == 0 then [] else [ms[0].lan] + Codes(ms[1..])
  }

  /** The `position` command: the start position, followed by ` moves ` and
      the space-joined codes unless that joined text is empty. */
  function PositionCommand(ms: seq<Move>): string {
    PositionLine(Js.Join(Codes(ms), ' '))
  }

  function PositionLine(moves: string): string {
    "position startpos" + (if moves != "" then " moves " + moves else "")
  }

  /** The three commands one synchronisation sends, in order: stop the
      running search, set the position, search to depth 20. */
  function Commands(ms: seq<Move>): (r: seq<string>)
    ensures |r| == 3 && r[0] == StopCommand && r[2] == GoCommand
    ensures r[1] == PositionCommand(ms)
    ensures AllReadable(ms) ==> Js.Split(r[1], ' ') == PositionTokens(ms)
  {
    ReadablePositionTokens(ms);
    [StopCommand, PositionCommand(ms), GoCommand]
  }

  predicate AllReadable(ms: seq<Move>) {
    forall i :: 0 <= i < |ms| ==> Readable(ms[i].lan)
  }

  /** The words the engine reads out of a `position` command for `ms`. */
  function PositionTokens(ms: seq<Move>): seq<string> {
    if |ms| == 0 then ["position", "startpos"] else ["position", "startpos", "moves"] + Codes(ms)
  }

  lemma ReadablePositionTokens(ms: seq<Move>)
    ensures AllReadable(ms) ==> Js.Split(PositionCommand(ms), ' ') == PositionTokens(ms)
  {
    if AllReadable(ms) {
      PositionCommandTokens(ms);
    }
  }

  /** A code the engine can read back out of a command line. */
  predicate Readable(code: string) {
    code != "" && ' ' !in code
  }

  /** Splitting the `position` command at spaces, as the engine does, gives
      back exactly the moves it was built from; without moves it is the
      bare `position startpos`. */
  lemma PositionCommandTokens(ms: seq<Move>)
    requires forall i :: 0 <= i < |ms| ==> Readable(ms[i].lan)
    ensures |ms| == 0 ==> Js.Split(PositionCommand(ms), ' ') == ["position", "startpos"]
    ensures |ms| > 0 ==> Js.Split(PositionCommand(ms), ' ') == ["position", "startpos", "moves"] + Codes(ms)
  {
    if |ms| == 0 {
      BareTokens(ms);
    } else {
      MovesTokens(ms);
    }
  }

  lemma BareTokens(ms: seq<Move>)
    requires |ms| == 0
    ensures Js.Split(PositionCommand(ms), ' ') == ["position", "startpos"]
  {
    KeywordsFree();
    assert Js.Join(Codes(ms), ' ') == "";
    var cmd := PositionCommand(ms);
    assert cmd == "position startpos";
    CommandWords("");
    Js.SplitPrefix("position", "startpos", ' ');
    Js.SplitFree("startpos", ' ');
    assert Js.Split(cmd, ' ') == ["position"] + ["startpos"];
  }

  lemma MovesTokens(ms: seq<Move>)
    requires |ms| > 0
    requires forall i :: 0 <= i < |ms| ==> Readable(ms[i].lan)
    ensures Js.Split(PositionCommand(ms), ' ') == ["position", "startpos", "moves"] + Codes(ms)
  {
    var codes := Codes(ms);
    var moves := Js.Join(codes, ' ');
    assert moves != "" by {
      Js.JoinFirst(codes, ' ');
    }
    assert Js.Split(moves, ' ') == codes by {
      Js.SplitJoin(codes, ' ');
    }
    LineTokens(moves);
    HeadWords(codes);
  }

  /** The `position` line with moves splits into its three words and the moves' pieces. */
  lemma LineTokens(moves: string)
    requires moves != ""
    ensures Js.Split(PositionLine(moves), ' ') == ["position"] + (["startpos"] + (["moves"] + Js.Split(moves, ' ')))
  {
    var rest := "startpos" + [' '] + ("moves" + [' '] + moves);
    CommandWords(moves);
    KeywordsFree();
    Js.SplitPrefix("position", rest, ' ');
    Js.SplitPrefix("startpos", "moves" + [' '] + moves, ' ');
    Js.SplitPrefix("moves", moves, ' ');
  }

  lemma HeadWords(codes: seq<string>)
    ensures ["position"] + (["startpos"] + (["moves"] + codes)) == ["position", "startpos", "moves"] + codes
  {
  }

  /** The fixed words of the `position` command hold no space. */
  lemma KeywordsFree()
    ensures ' ' !in "position" && ' ' !in "startpos" && ' ' !in "moves"
  {
  }

  /** The `position` command is its words with one space between each. */
  lemma CommandWords(moves: string)
    ensures "position startpos" == "position" + [' '] + "startpos"
    ensures "position startpos" + (" moves " + moves)
         == "position" + [' '] + ("startpos" + [' '] + ("moves" + [' '] + moves))
  {
  }
}

=== FILE: timeline.dfy ===
/** The move timeline of the analysis board: a loaded mainline with a cursor,
    a branch the user plays by dragging pieces with its own cursor, the rules
    engine's move stack that must always match the two, and the commands the
    board posts to the engine whenever the position changes. */
module Timeline {
  import opened Wrappers
  import opened Chess
  import Js
  import Sync

  datatype State = State(
    history: seq<Move>,       // the mainline loaded from PGN
    moveIndex: nat,           // how many mainline moves are applied
    customMoves: seq<Move>,   // the branch the user played
    numCustomMoves: nat,      // how many branch moves are applied
    game: Game,               // the rules engine's move stack
    board: Game,              // the position last handed to the board for display
    sent: seq<string>)        // every command posted to the engine, oldest first

  /** The board as the page starts: nothing loaded, nothing played, nothing sent. */
  function Initial(): (s: State)
    ensures Valid(s)
  {
    State([], 0, [], 0, [], [], [])
  }

  /** What every operation keeps true. The cursors stay within their
      sequences, the live game is the applied mainline prefix followed by the
      applied branch prefix, and a branch none of whose moves is applied
      survives only when there is no mainline to fall back on. */
  predicate Valid(s: State) {
    && s.moveIndex <= |s.history|
    && s.numCustomMoves <= |s.customMoves|
    && s.game == s.history[..s.moveIndex] + s.customMoves[..s.numCustomMoves]
    && (s.numCustomMoves == 0 && |s.customMoves| > 0 ==> |s.history| == 0)
  }

  /** The moves the engine is told about: the mainline up to its cursor
      followed by the branch up to its cursor, each cut with `slice`. */
  function Played(s: State): seq<Move> {
    Js.Slice(s.history, 0, s.moveIndex) + Js.Slice(s.customMoves, 0, s.numCustomMoves)
  }

  /** `updateBoard`: send stop, the position and the search command, then
      show the live game. For a valid timeline the engine is told exactly
      the live game, and nothing but the outbox and the display changes. */
  function UpdateBoard(s: State): (r: State)
    ensures Valid(s) ==> r.sent == s.sent + Sync.Commands(s.game) && r.board == s.game
    ensures r.history == s.history && r.moveIndex == s.moveIndex
    ensures r.customMoves == s.customMoves && r.numCustomMoves == s.numCustomMoves
    ensures r.game == s.game
    ensures Valid(r) <==> Valid(s)
  {
    s.(sent := s.sent + Sync.Commands(Played(s)), board := s.game)
  }

  /** `r` was reached from `s` by one synchronisation: the engine was told
      the live game of `r` and the board shows it. */
  predicate Synced(s: State, r: State) {
    r.sent == s.sent + Sync.Commands(r.game) && r.board == r.game
  }

  /** Nothing was sent and the board was not redrawn. */
  predicate Quiet(s: State, r: State) {
    r.sent == s.sent && r.board == s.board
  }

  /** `analyze`: load the PGN, make its moves the mainline with the cursor at
      its end, drop the branch, announce a new game and synchronise. When the
      rules engine cannot load the text it throws: the timeline, the board
      and the engine are left alone, but the live game is whatever the failed
      load left behind, so the timeline invariant survives only when that is
      the game from before. */
  function Analyze(rules: Rules, s: State, pgn: string): (r: State)
    ensures rules.loadPgn(s.game, pgn).Failed? ==>
      && r == s.(game := rules.loadPgn(s.game, pgn).left)
      && Quiet(s, r)
      && (Valid(s) ==> (Valid(r) <==> r.game == s.game))
    ensures rules.loadPgn(s.game, pgn).Loaded? ==>
      var moves := rules.loadPgn(s.game, pgn).moves;
      && Valid(r)
      && r.history == moves && r.moveIndex == |moves|
      && r.customMoves == [] && r.numCustomMoves == 0
      && r.game == moves && r.board == moves
      && r.sent == s.sent + ["ucinewgame", "isready"] + Sync.Commands(moves)
  {
    match rules.loadPgn(s.game, pgn)
    case Failed(left) => s.(game := left)
    case Loaded(moves) =>
      var loaded := s.(history := moves, game := moves,
                       sent := s.sent + ["ucinewgame", "isready"],
                       numCustomMoves := 0, customMoves := [],
                       moveIndex := |moves|);
      assert moves[..|moves|] == moves;
      UpdateBoard(loaded)
  }

  /** `resetBoard`: back to the start position with no mainline and no branch. */
  function ResetBoard(s: State): (r: State)
    ensures Valid(r)
    ensures r.history == [] && r.customMoves == [] && r.game == [] && r.board == []
    ensures r.sent == s.sent + Sync.Commands([])
  {
    UpdateBoard(s.(game := [], history := [], numCustomMoves := 0, customMoves := [], moveIndex := 0))
  }

  /** `goBackward`: take back a branch move before any mainline move. When
      that leaves no branch move applied and a mainline exists, the branch is
      discarded. Taking back a branch move always synchronises; a mainline
      move only when `redraw` is set. At the very start nothing happens. */
  function GoBackward(s: State, redraw: bool): (r: State)
    ensures r.history == s.history
    ensures s.numCustomMoves > 0 ==>
      && r.numCustomMoves == s.numCustomMoves - 1 && r.moveIndex == s.moveIndex
      && r.customMoves == (if r.numCustomMoves == 0 && |s.history| > 0 then [] else s.customMoves)
    ensures s.numCustomMoves == 0 && s.moveIndex > 0 ==>
      r.moveIndex == s.moveIndex - 1 && r.numCustomMoves == 0 && r.customMoves == s.customMoves
    ensures s.numCustomMoves == 0 && s.moveIndex == 0 ==> r == s
    ensures s.numCustomMoves > 0 || s.moveIndex > 0 ==>
      r.numCustomMoves + r.moveIndex == s.numCustomMoves + s.moveIndex - 1
    ensures Valid(s) && (s.numCustomMoves > 0 || s.moveIndex > 0) ==> r.game == s.game[..|s.game| - 1]
    ensures Valid(s) ==> Valid(r)
    ensures Valid(s) && s.numCustomMoves > 0 ==> Synced(s, r)
    ensures s.numCustomMoves == 0 && s.moveIndex > 0 ==> (if redraw then Valid(s) ==> Synced(s, r) else Quiet(s, r))
  {
    if s.numCustomMoves > 0 then
      var n := s.numCustomMoves - 1;
      var branch := if n <= 0 && |s.history| > 0 then [] else s.customMoves;
      UpdateBoard(s.(numCustomMoves := n, customMoves := branch, game := Undo(s.game)))
    else if s.moveIndex <= 0 then
      s
    else
      var r := s.(moveIndex := s.moveIndex - 1, game := Undo(s.game));
      assert Valid(s) ==> r.game == s.history[..s.moveIndex - 1] by {
        if Valid(s) {
          assert s.game == s.history[..s.moveIndex];
        }
      }
      if redraw then UpdateBoard(r) else r
  }

  /** `goForward`: while a branch exists, step along it and never along the
      mainline, even once the branch is fully applied; only without a branch
      does the mainline cursor advance. At either end nothing happens. */
  function GoForward(s: State, redraw: bool): (r: State)
    ensures r.history == s.history && r.customMoves == s.customMoves
    ensures |s.customMoves| > 0 ==> r.moveIndex == s.moveIndex
    ensures |s.customMoves| > 0 && s.numCustomMoves < |s.customMoves| ==>
      r.numCustomMoves == s.numCustomMoves + 1 && r.game == s.game + [s.customMoves[s.numCustomMoves]]
    ensures |s.customMoves| == 0 && s.moveIndex < |s.history| ==>
      && r.moveIndex == s.moveIndex + 1 && r.numCustomMoves == s.numCustomMoves
      && r.game == s.game + [s.history[s.moveIndex]]
    ensures !Advances(s) ==> r == s
    ensures Valid(s) ==> Valid(r)
    ensures Valid(s) && |s.customMoves| > 0 && s.numCustomMoves < |s.customMoves| ==> Synced(s, r)
    ensures |s.customMoves| == 0 && s.moveIndex < |s.history| ==>
      (if redraw then Valid(s) ==> Synced(s, r) else Quiet(s, r))
  {
    if |s.customMoves| > 0 then
      if s.numCustomMoves < |s.customMoves| then
        var n := s.numCustomMoves + 1;
        var r := s.(numCustomMoves := n, game := s.game + [s.customMoves[n - 1]]);
        assert Valid(s) ==> Valid(r) by {
          if Valid(s) {
            assert s.customMoves[..n] == s.customMoves[..n - 1] + [s.customMoves[n - 1]];
          }
        }
        UpdateBoard(r)
      else
        s
    else if s.moveIndex >= |s.history| then
      s
    else
      var r := s.(game := s.game + [s.history[s.moveIndex]], moveIndex := s.moveIndex + 1);
      assert Valid(s) ==> Valid(r) by {
        if Valid(s) {
          assert s.history[..s.moveIndex + 1] == s.history[..s.moveIndex] + [s.history[s.moveIndex]];
        }
      }
      if redraw then UpdateBoard(r) else r
  }

  /** Whether `goForward` has a move to play: the next branch move while a
      branch exists, otherwise the next mainline move. */
  predicate Advances(s: State) {
    if |s.customMoves| > 0 then s.numCustomMoves < |s.customMoves| else s.moveIndex < |s.history|
  }

  /** The loop of `goToBeginning`: step back without redrawing until both
      cursors are 0. Each branch move taken back still synchronises, so the
      outbox keeps what it held and grows by one stop/position/go per
      applied branch move. */
  function BackToStart(s: State): (r: State)
    ensures r.numCustomMoves == 0 && r.moveIndex == 0 && r.history == s.history
    ensures Valid(s) ==> Valid(r) && r.game == []
    ensures Valid(s) ==> |r.sent| == |s.sent| + 3 * s.numCustomMoves && r.sent[..|s.sent|] == s.sent
    decreases s.numCustomMoves + s.moveIndex
  {
    if s.numCustomMoves > 0 || s.moveIndex > 0 then BackToStart(GoBackward(s, false)) else s
  }

  /** The loop's outbox, stated through `Trail`: one synchronisation for
      every branch move taken back, none for the mainline moves. */
  lemma {:induction false} BackToStartTrail(s: State)
    ensures Valid(s) ==> BackToStart(s).sent == s.sent + Trail(s.game, s.numCustomMoves)
    decreases s.numCustomMoves + s.moveIndex
  {
    if Valid(s) && (s.numCustomMoves > 0 || s.moveIndex > 0) {
      var t := GoBackward(s, false);
      var n := s.numCustomMoves;
      var c := if n > 0 then Sync.Commands(t.game) else [];
      assert BackToStart(s) == BackToStart(t);
      assert Valid(t) && t.numCustomMoves == if n > 0 then n - 1 else 0;
      assert t.sent == s.sent + c by {
        if n > 0 {
          assert Synced(s, t);
        }
      }
      assert Trail(s.game, n) == c + Trail(t.game, t.numCustomMoves) by {
        if n > 0 {
          assert t.game == s.game[..|s.game| - 1];
        }
      }
      BackToStartTrail(t);
      Regroup(s.sent, c, Trail(t.game, t.numCustomMoves));
    }
  }

  /** Appending in two steps is appending the two parts at once. */
  lemma Regroup<T>(a: seq<T>, b: seq<T>, c: seq<T>)
    ensures (a + b) + c == a + (b + c)
  {
  }

  /** The commands sent while `n` moves are taken back from `g` one at a
      time, each followed by a synchronisation: stop/position/go for `g`
      less one move, then for `g` less two moves, and so on. */
  function Trail(g: Game, n: nat): seq<string>
    requires n <= |g|
    decreases n
  {
    if n == 0 then [] else Sync.Commands(g[..|g| - 1]) + Trail(g[..|g| - 1], n - 1)
  }

  /** The trail holds one stop/position/go per move taken back: its `k`-th
      triple is the synchronisation for `g` with `k + 1` moves removed. */
  lemma {:induction false} TrailTriples(g: Game, n: nat)
    requires n <= |g|
    ensures |Trail(g, n)| == 3 * n
    ensures forall k :: 0 <= k < n ==> Trail(g, n)[3 * k .. 3 * k + 3] == Sync.Commands(g[..|g| - k - 1])
    decreases n
  {
    if n > 0 {
      var h := g[..|g| - 1];
      TrailTriples(h, n - 1);
      var rest := Trail(h, n - 1);
      var c := Sync.Commands(h);
      assert Trail(g, n) == c + rest;
      forall k | 0 <= k < n
        ensures Trail(g, n)[3 * k .. 3 * k + 3] == Sync.Commands(g[..|g| - k - 1])
      {
        if k == 0 {
          assert (c + rest)[..3] == c;
        } else {
          assert (c + rest)[3 * k .. 3 * k + 3] == rest[3 * (k - 1) .. 3 * (k - 1) + 3];
          assert h[..|h| - (k - 1) - 1] == g[..|g| - k - 1];
        }
      }
    }
  }

  /** `goToBeginning`: back to the start position, with one final
      synchronisation when anything moved. The loop steps back with
      `updateBoard` off, yet every branch move taken back is synchronised on
      the way, so the engine hears one stop/position/go per applied branch
      move before the final one. */
  function GoToBeginning(s: State): (r: State)
    ensures r.numCustomMoves == 0 && r.moveIndex == 0 && r.history == s.history
    ensures Valid(s) ==> Valid(r) && r.game == []
    ensures (s.numCustomMoves > 0 || s.moveIndex > 0) && Valid(s) ==>
      r.board == [] && |r.sent| >= 3 && r.sent[|r.sent| - 3..] == Sync.Commands([])
    ensures (s.numCustomMoves > 0 || s.moveIndex > 0) && Valid(s) ==>
      |r.sent| == |s.sent| + 3 * (s.numCustomMoves + 1) && r.sent[..|s.sent|] == s.sent
    ensures s.numCustomMoves == 0 && s.moveIndex == 0 ==> r == s
  {
    if s.numCustomMoves > 0 || s.moveIndex > 0 then UpdateBoard(BackToStart(s)) else s
  }

  /** Everything `goToBeginning` tells the engine: one stop/position/go for
      each game the branch passes through on the way back (see
      `TrailTriples`), then the start position. */
  lemma GoToBeginningSends(s: State)
    ensures (s.numCustomMoves > 0 || s.moveIndex > 0) && Valid(s) ==>
      GoToBeginning(s).sent == s.sent + Trail(s.game, s.numCustomMoves) + Sync.Commands([])
  {
    if (s.numCustomMoves > 0 || s.moveIndex > 0) && Valid(s) {
      BackToStartTrail(s);
    }
  }

  /** The loop of `goToEnd` as written: step forward without redrawing while
      either cursor is short of its end. `None` means the loop is still
      running after `fuel` steps. */
  function ForwardToEnd(s: State, fuel: nat): Option<State>
    decreases fuel
  {
    if s.numCustomMoves < |s.customMoves| || s.moveIndex < |s.history| then
      if fuel == 0 then None else ForwardToEnd(GoForward(s, false), fuel - 1)
    else Some(s)
  }

  /** `goToEnd` as written, given `fuel` loop iterations. */
  function GoToEnd(s: State, fuel: nat): Option<State> {
    if s.numCustomMoves < |s.customMoves| || s.moveIndex < |s.history| then
      match ForwardToEnd(s, fuel)
      case None => None
      case Some(t) => Some(UpdateBoard(t))
    else Some(s)
  }

  /** The state in which `goToEnd` never returns: a branch exists, so
      `goForward` ignores the mainline, yet the mainline cursor is short of
      its end, so the loop guard never turns false. */
  predicate Hangs(s: State) {
    |s.customMoves| > 0 && s.moveIndex < |s.history|
  }

  /** However many iterations it is given, the loop of `goToEnd` does not
      finish from a state that hangs. */
  lemma {:induction false} ForwardToEndHangs(s: State, fuel: nat)
    requires Hangs(s)
    ensures ForwardToEnd(s, fuel) == None
    decreases fuel
  {
    if fuel > 0 {
      ForwardToEndHangs(GoForward(s, false), fuel - 1);
    }
  }

  /** How many forward steps remain on a valid timeline. */
  function Remaining(s: State): nat
    requires Valid(s)
  {
    (|s.customMoves| - s.numCustomMoves) + (|s.history| - s.moveIndex)
  }

  /** From a state that does not hang, the loop of `goToEnd` finishes within
      the remaining number of moves, with both cursors at their ends. */
  lemma {:induction false} ForwardToEndFinishes(s: State, fuel: nat)
    requires Valid(s) && !Hangs(s)
    requires fuel >= Remaining(s)
    ensures ForwardToEnd(s, fuel).Some?
    ensures var r := ForwardToEnd(s, fuel).value;
      && Valid(r) && r.history == s.history && r.customMoves == s.customMoves
      && r.moveIndex == |s.history| && r.numCustomMoves == |s.customMoves|
    decreases fuel
  {
    if s.numCustomMoves < |s.customMoves| || s.moveIndex < |s.history| {
      var t := GoForward(s, false);
      assert Remaining(t) < Remaining(s);
      ForwardToEndFinishes(t, fuel - 1);
    }
  }

  /** `goToEnd` returns exactly when the state does not hang. */
  lemma GoToEndReturnsIff(s: State)
    requires Valid(s)
    ensures (exists fuel: nat :: GoToEnd(s, fuel).Some?) <==> !Hangs(s)
  {
    if Hangs(s) {
      forall fuel: nat ensures GoToEnd(s, fuel).None? {
        ForwardToEndHangs(s, fuel);
      }
    } else {
      ForwardToEndFinishes(s, Remaining(s));
      assert GoToEnd(s, Remaining(s)).Some?;
    }
  }

  /** The loop of `goToEnd` with the guard `goForward` itself obeys. */
  function ForwardAll(s: State): (r: State)
    ensures !Advances(r) && r.history == s.history && r.customMoves == s.customMoves
    ensures Valid(s) ==> Valid(r)
    decreases Span(s)
  {
    if Advances(s) then ForwardAll(GoForward(s, false)) else s
  }

  /** A bound on the forward steps left, defined for every state. */
  function Span(s: State): nat {
    (if s.numCustomMoves <= |s.customMoves| then |s.customMoves| - s.numCustomMoves else 0)
    + (if s.moveIndex <= |s.history| then |s.history| - s.moveIndex else 0)
  }

  /** The corrected `goToEnd`: step forward while `goForward` has a
      move to play, then synchronise once. It always returns, leaves nothing
      further to step to, and agrees with the code as written wherever that
      returns. */
  function GoToEndFixed(s: State): (r: State)
    ensures !Advances(r) && r.history == s.history && r.customMoves == s.customMoves
    ensures Valid(s) ==> Valid(r)
    ensures Valid(s) && Advances(s) ==> r.board == r.game
  {
    if Advances(s) then UpdateBoard(ForwardAll(s)) else s
  }

  /** Wherever the code as written returns, the corrected version ends in the
      same state. */
  lemma {:induction false} GoToEndFixedAgrees(s: State)
    requires Valid(s) && !Hangs(s)
    ensures GoToEnd(s, Remaining(s)) == Some(GoToEndFixed(s))
  {
    ForwardAgrees(s, Remaining(s));
  }

  lemma {:induction false} ForwardAgrees(s: State, fuel: nat)
    requires Valid(s) && !Hangs(s)
    requires fuel >= Remaining(s)
    ensures ForwardToEnd(s, fuel) == Some(ForwardAll(s))
    ensures (s.numCustomMoves < |s.customMoves| || s.moveIndex < |s.history|) <==> Advances(s)
    decreases fuel
  {
    if Advances(s) {
      var t := GoForward(s, false);
      assert Remaining(t) < Remaining(s);
      ForwardAgrees(t, fuel - 1);
    }
  }

  /** `onPieceDrop`: play the dragged move on the live game. If the rules
      engine refuses it, answer false and change nothing. Otherwise cut the
      branch at its cursor, append the move, advance the cursor past it and
      synchronise; the mainline and its cursor stay as they were. */
  function OnPieceDrop(rules: Rules, s: State, from: string, to: string): (r: (bool, State))
    ensures rules.playSquares(s.game, from, to).None? ==> r == (false, s)
    ensures rules.playSquares(s.game, from, to).Some? ==>
      var m := rules.playSquares(s.game, from, to).value;
      && r.0
      && r.1.customMoves == Js.Slice(s.customMoves, 0, s.numCustomMoves) + [m]
      && r.1.numCustomMoves == s.numCustomMoves + 1
      && r.1.history == s.history && r.1.moveIndex == s.moveIndex
      && r.1.game == s.game + [m]
    ensures Valid(s) ==> Valid(r.1)
    ensures Valid(s) && r.0 ==> r.1.numCustomMoves == |r.1.customMoves| && r.1.board == r.1.game
    ensures Valid(s) && r.0 ==> Synced(s, r.1)
  {
    match rules.playSquares(s.game, from, to)
    case None => (false, s)
    case Some(m) =>
      var n := s.numCustomMoves;
      var branch := Js.Slice(s.customMoves, 0, n) + [m];
      var t := s.(game := s.game + [m], customMoves := branch, numCustomMoves := n + 1);
      assert Valid(s) ==> Valid(t) by {
        if Valid(s) {
          assert branch[..n + 1] == s.customMoves[..n] + [m];
        }
      }
      (true, UpdateBoard(t))
  }

  // ---------------------------------------------------------------------
  // Navigation round trips

  /** A step forward that plays a move is undone by a step back. */
  lemma ForwardThenBack(s: State, b1: bool, b2: bool)
    requires Valid(s) && Advances(s)
    ensures var r := GoBackward(GoForward(s, b1), b2);
      && r.game == s.game && r.moveIndex == s.moveIndex
      && r.numCustomMoves == s.numCustomMoves && r.customMoves == s.customMoves
  {
    var t := GoForward(s, b1);
    assert |t.game| == |s.game| + 1;
    assert t.game[..|t.game| - 1] == s.game;
  }

  /** A step back is undone by a step forward unless it took back the only
      applied branch move while a mainline exists, which discards the branch. */
  lemma BackThenForward(s: State, b1: bool, b2: bool)
    requires Valid(s) && (s.numCustomMoves > 0 || s.moveIndex > 0)
    requires !(s.numCustomMoves == 1 && |s.history| > 0)
    ensures var r := GoForward(GoBackward(s, b1), b2);
      && r.game == s.game && r.moveIndex == s.moveIndex
      && r.numCustomMoves == s.numCustomMoves && r.customMoves == s.customMoves
  {
    var t := GoBackward(s, b1);
    if s.numCustomMoves > 0 {
      assert s.game == t.game + [s.customMoves[s.numCustomMoves - 1]] by {
        assert s.customMoves[..s.numCustomMoves]
            == s.customMoves[..s.numCustomMoves - 1] + [s.customMoves[s.numCustomMoves - 1]];
      }
    } else {
      assert s.game == t.game + [s.history[s.moveIndex - 1]] by {
        assert s.history[..s.moveIndex] == s.history[..s.moveIndex - 1] + [s.history[s.moveIndex - 1]];
      }
    }
  }

  /** Taking back the only applied branch move while a mainline exists
      discards the branch: the next step forward follows the mainline. */
  lemma BranchAbandoned(s: State, b1: bool, b2: bool)
    requires Valid(s) && s.numCustomMoves == 1 && |s.history| > 0
    ensures GoBackward(s, b1).customMoves == []
    ensures s.moveIndex < |s.history| ==>
      GoForward(GoBackward(s, b1), b2).game == s.history[..s.moveIndex + 1]
    ensures s.moveIndex == |s.history| ==> GoForward(GoBackward(s, b1), b2).game == s.history
  {
    var t := GoBackward(s, b1);
    assert t.game == s.history[..s.moveIndex];
    if s.moveIndex < |s.history| {
      assert s.history[..s.moveIndex + 1] == s.history[..s.moveIndex] + [s.history[s.moveIndex]];
    }
  }

  /** Once the branch is fully applied, stepping forward does nothing, even
      with mainline moves left to play. */
  lemma ForwardStuckOnBranch(s: State, redraw: bool)
    requires |s.customMoves| > 0 && s.numCustomMoves == |s.customMoves|
    ensures GoForward(s, redraw) == s
  {
  }

  /** A dropped move always lands at the tip of the branch: the continuation
      recorded after the cursor is gone and stepping forward does nothing. */
  lemma DropDiscardsContinuation(rules: Rules, s: State, from: string, to: string, redraw: bool)
    requires Valid(s) && OnPieceDrop(rules, s, from, to).0
    ensures var r := OnPieceDrop(rules, s, from, to).1;
      GoForward(r, redraw) == r && |r.customMoves| == s.numCustomMoves + 1
  {
  }

  /** Jumping to the start and then to the end of a branch-free timeline
      replays the whole mainline. */
  lemma StartThenEnd(s: State)
    requires Valid(s) && s.customMoves == []
    ensures var r := GoToEnd(GoToBeginning(s), |s.history|);
      r.Some? && r.value.game == s.history && r.value.moveIndex == |s.history|
  {
    var b := GoToBeginning(s);
    assert Remaining(b) == |s.history|;
    ForwardToEndFinishes(b, |s.history|);
    var e := ForwardToEnd(b, |s.history|).value;
    assert e.game == s.history[..|s.history|];
  }

  /** A piece dragged while the cursor is behind the end of the mainline
      leaves a state from which "jump to end" never returns. */
  lemma DropBehindEndHangs(rules: Rules, s: State, from: string, to: string)
    requires s.moveIndex < |s.history| && OnPieceDrop(rules, s, from, to).0
    ensures forall fuel: nat :: GoToEnd(OnPieceDrop(rules, s, from, to).1, fuel) == None
  {
    var dropped := OnPieceDrop(rules, s, from, to).1;
    assert Hangs(dropped);
    forall fuel: nat ensures GoToEnd(dropped, fuel) == None {
      ForwardToEndHangs(dropped, fuel);
    }
  }

  /** The hang in concrete terms: load a two-move game, step back once, drag
      a piece, then press "jump to end". */
  lemma HangScenario(m1: Move, m2: Move, m3: Move)
    ensures var rules := Rules((g, c) => None, (g, f, t) => Some(m3), g => White, (g, p) => Loaded([m1, m2]));
      var loaded := Analyze(rules, Initial(), "1. e4 e5");
      var back := GoBackward(loaded, true);
      forall fuel: nat :: GoToEnd(OnPieceDrop(rules, back, "d7", "d5").1, fuel) == None
  {
    var rules := Rules((g, c) => None, (g, f, t) => Some(m3), g => White, (g, p) => Loaded([m1, m2]));
    var loaded := Analyze(rules, Initial(), "1. e4 e5");
    assert loaded.history == [m1, m2] && loaded.moveIndex == 2 && loaded.numCustomMoves == 0;
    var back := GoBackward(loaded, true);
    assert back.moveIndex == 1 && |back.history| == 2;
    assert OnPieceDrop(rules, back, "d7", "d5").0;
    DropBehindEndHangs(rules, back, "d7", "d5");
  }
}

=== FILE: wrappers.dfy ===
/** The optional value, used wherever JavaScript hands back `undefined` or a
    library call throws instead of producing a result. */
module Wrappers {

  datatype Option<+T> = None | Some(value: T)
}
